=== FILE: README.md ===
# Zemetric rate limiting and usage accounting, in Dafny

Zemetric is a small SMS-sending service. This project models its backend core
and two helpers from its dashboard:

- **the rate limiter** (`backend/src/middlewares/rateLimiter.ts`). For a source
  address and a phone number it reads two counters, `sms:<ip>:<phone>:minute`
  and `sms:<ip>:<phone>:day`. It rejects with 429 when a live counter has
  reached 3 or 10. On a reject it pushes a text onto `rateLimitViolations:<ip>`
  and sets that list to expire in an hour. Any store error gives 500.
- **usage logging** (`backend/src/models/smsModel.ts`). One MULTI/EXEC
  transaction increments and re-arms the global counters `minute:stats` (60 s)
  and `day:stats` (86400 s).
- **the SMS service** (`backend/src/services/smsService.ts`). A mock
  dispatcher that always succeeds, followed by the usage logging, plus a reader
  for the two global counters.
- **the stats controller** (`backend/src/controllers/statsController.ts`).
  Reads the per-identity counters and a source's violation list.
- **the dashboard helpers** (`frontend/src/lib/utils.ts`). `mapResponse` keeps
  the status and body of an HTTP response. `getTimeStamp` splits a violation
  text with the pattern `(.+) at ([\d\-T:\.Z]+)`.

Redis is modelled as a map from keys to entries. Each entry is a counter or a
list of strings, with an optional absolute expiry. A key is live until that
expiry. The commands used (GET, TTL, INCR, EXPIRE, LPUSH, LRANGE 0 -1) follow
Redis, including WRONGTYPE errors and INCR's 64-bit overflow error.

Each handler numbers its store commands 0, 1, 2, … in the order it issues
them. A `Link` says whether every command reaches the store (`Healthy`) or
only the first few (`LostAfter(n)`). The first failing command ends the
handler in its `catch`, and nothing is rolled back. The clock of
`new Date().toISOString()` is a `stamp` parameter. Time passes through
`Redis.Advance`.

**Nothing in the backend writes an `sms:` key.** The limiter only reads the
per-identity counters; it never increments them or sets their expiry, and
no other handler touches them. The consequence is proved as
`Backend.LimiterNeverRejects` and `Backend.EmptyStoreNeverRejects`: starting
from a store with no `sms:` keys, after any interleaving of the modelled
handlers and of elapsed time, the limiter never answers 429. The per-identity
usage report also reads 0 and 0.

Modules, one per source file, plus shared ones:

- `Base`: option type.
- `Redis`: the store model.
- `RateLimiter`, `SmsModel`, `SmsService`, `StatsController`, `Utils`: the
  source files.
- `RoundTrip`: the limiter's violation text read back by `getTimeStamp`.
- `Backend`: runs of all handlers.

## Model

| member | source | states |
|---|---|---|
| Redis.Get | backend/src/controllers/statsController.ts:13 | GET fails exactly when the connection is down or the key holds a live list; otherwise it returns the live counter, or nothing for an absent or expired key |
| Redis.Ttl | backend/src/middlewares/rateLimiter.ts:22 | TTL is -2 for a key that is not live, -1 for a live key without expiry, and otherwise the seconds left until the key expires |
| Redis.Incr | backend/src/models/smsModel.ts:12 | INCR touches only its key; the live counter goes up by one and keeps its expiry; an absent or expired key restarts at 1 with no expiry; a list or a counter at the 64-bit maximum is an error |
| Redis.Expire | backend/src/models/smsModel.ts:13 | EXPIRE touches only its key, ignores a key that is not live, and for a positive duration sets the expiry to now plus the duration without changing the value |
| Redis.LPush | backend/src/middlewares/rateLimiter.ts:25-28 | LPUSH puts the item at the head of the live list, touches no other key, and fails on a counter; a new list has no expiry and an existing list keeps its own |
| Redis.LRangeAll | backend/src/controllers/statsController.ts:31 | LRANGE 0 -1 returns the whole live list, empty for an absent key, and fails on a counter |
| RateLimiter.MinuteKey | backend/src/middlewares/rateLimiter.ts:15 | the minute counter key is an `sms:` key: the address right after the prefix, a ':', the phone number, and `:minute` at the end; the same key the usage report reads |
| RateLimiter.DayKey | backend/src/middlewares/rateLimiter.ts:16 | the day counter key is an `sms:` key: the address right after the prefix, a ':', the phone number, and `:day` at the end |
| RateLimiter.ViolationKey | backend/src/middlewares/rateLimiter.ts:26 | the violation list key is never one of the `sms:` keys the limiter reads |
| RateLimiter.ViolationText | backend/src/middlewares/rateLimiter.ts:27 | the pushed text is the window's description of the phone number, then " at ", then the timestamp |
| RateLimiter.CeilHours | backend/src/middlewares/rateLimiter.ts:51-53 | the day hint is the least whole number of hours whose length covers the remaining TTL, as `Math.ceil(ttl / 60 / 60)` |
| RateLimiter.Reject | backend/src/middlewares/rateLimiter.ts:22-35 | a reject answers 500 exactly when one of its three commands is lost or the violation key holds a counter; otherwise the hint is the TTL, the text is at the head of the list, the list expires in an hour and nothing else changes; a store not reached by the LPUSH is unchanged, and a 500 after a delivered LPUSH keeps the push, with nothing rolled back; when the violation key holds a counter the store is unchanged |
| RateLimiter.RateLimit | backend/src/middlewares/rateLimiter.ts:7-64 | 500 exactly when a command it needs is lost or a GET meets a list (WRONGTYPE) or the reject's LPUSH meets a counter; `next` only when both GETs arrived, neither counter is at its limit, and the store is untouched; a minute reject only when the minute counter is at 3, with the minute TTL as hint; a day reject only when the minute counter is below 3 and the day counter at 10; each reject records its text; a 500 leaves the store untouched when the LPUSH was lost, when a GET met a list or the violation key holds a counter (WRONGTYPE), and when neither counter is at its limit; it keeps the push when the LPUSH arrived |
| RateLimiter.KeysInjective | backend/src/middlewares/rateLimiter.ts:15-16 | for phone numbers without ':' two requests share a counter key exactly when they share address and number, and a minute key is never a day key |
| RateLimiter.KeysCollideAcrossColon | backend/src/middlewares/rateLimiter.ts:15-16 | with a ':' in the phone number, two different addresses (as with IPv6) can share one counter key |
| RateLimiter.Decision | backend/src/middlewares/rateLimiter.ts:20-59 | on a healthy connection, the outcome is the reference decision: minute reject if the minute count is at least 3, else day reject if the day count is at least 10, else `next` |
| RateLimiter.LimitBoundaries | backend/src/middlewares/rateLimiter.ts:4-5 | a minute count of 2 with a day count of 9 is admitted, a minute count of 3 is rejected on the minute window, and a day count of 10 on the day window |
| RateLimiter.MinuteRejectIgnoresDayKey | backend/src/middlewares/rateLimiter.ts:21-36 | once the minute counter is at its limit, the day key has no influence on the outcome |
| RateLimiter.LostConnectionIsServerError | backend/src/middlewares/rateLimiter.ts:60-63 | when no command reaches the store the answer is 500 and the store is unchanged |
| RateLimiter.FailedExpireKeepsPush | backend/src/middlewares/rateLimiter.ts:25-29 | a connection lost between LPUSH and EXPIRE answers 500, yet the violation stays pushed |
| RateLimiter.LostExpireKeepsListForever | backend/src/middlewares/rateLimiter.ts:25-29 | when the lost EXPIRE follows the LPUSH that created the violation list, the list has no expiry and stays live, holding that one text, however much time passes |
| RateLimiter.DecisionIsStable | backend/src/middlewares/rateLimiter.ts:20-57 | repeating a request at the same instant gives the same outcome, since the limiter never writes the counters; after two rejects the violation list is two texts longer |
| SmsModel.Bump | backend/src/models/smsModel.ts:12-13 | INCR then EXPIRE counts the key once, changes no other key, and leaves it live for exactly the window; when INCR fails inside EXEC (a live list, or a counter at the 64-bit maximum) the value is kept and only the expiry is re-armed |
| SmsModel.LogSMSRequest | backend/src/models/smsModel.ts:4-17 | the transaction fails only when it does not reach the store; otherwise both global counters go up by one (or start at 1) and expire one window from now, and no other key changes; a global key holding a list or a maximal counter keeps its value |
| SmsModel.CountersExpireAfterLastCall | backend/src/models/smsModel.ts:13-15 | with no further call, each global counter is live exactly until its window has elapsed |
| SmsModel.ExpiryReArmedOnEveryCall | backend/src/models/smsModel.ts:12-13 | two calls within a minute, for any two numbers, add two to the minute counter, and its expiry moves to a minute after the second call |
| SmsService.MockSendSMS | backend/src/services/smsService.ts:5-8 | the mock dispatcher reports success with the fixed message "SMS sent successfully", whatever the number and text |
| SmsService.SendSMSMessage | backend/src/services/smsService.ts:11-19 | a send succeeds exactly when the logging transaction reaches the store; it returns the mock's fixed success and counts the send; a failure leaves the store unchanged |
| SmsService.GetSMSStats | backend/src/services/smsService.ts:22-30 | the stats succeed exactly when both reads arrive and neither key holds a list; each reads the live counter or 0 |
| SmsService.SendIsCountedOnce | backend/src/services/smsService.ts:16 | one delivered send raises both global readings by exactly one |
| SmsService.ReadingsAfterSends | backend/src/services/smsService.ts:11-19 | k delivered sends at one instant raise both global readings by k |
| SmsService.SendsAreCountedOnce | backend/src/services/smsService.ts:22-30 | after k sends at one instant, `getSMSStats` reports both counts raised by k, whatever the numbers used |
| StatsController.GetSMSStats | backend/src/controllers/statsController.ts:5-24 | usage fails exactly when a read is lost or a key holds a list; each count is the live counter or 0 |
| StatsController.GetRateLimitViolations | backend/src/controllers/statsController.ts:27-37 | the report fails exactly when the read is lost or the key holds a counter; otherwise it is the whole live list, or empty |
| StatsController.UsagePredictsLimiter | backend/src/controllers/statsController.ts:9-18 | the usage report reads the counters the limiter judges: the limiter rejects on the minute window exactly when the reported minute count is at least 3, and so on for the day window and for `next` |
| StatsController.RejectIsReported | backend/src/controllers/statsController.ts:31 | after a reject, the violation report of the source is the new text followed by everything reported before |
| StatsController.ViolationsArePerSource | backend/src/controllers/statsController.ts:28-31 | a request from one address never changes another address's violation report |
| Backend.LimitPreservesTyped | backend/src/middlewares/rateLimiter.ts:44-48 | the limiter writes only a list, under a violation key, so a well-typed store stays well typed |
| Backend.SendPreservesTyped | backend/src/models/smsModel.ts:9-16 | a send writes only counters, under the two global keys, so a well-typed store stays well typed |
| Backend.RunPreservesTyped | backend/src/models/smsModel.ts:12-15 | every run of handlers and elapsed time keeps counters under counter keys and lists under violation keys |
| Backend.RunKeepsNoIdentityCounters | backend/src/middlewares/rateLimiter.ts:20-21 | no handler creates an `sms:` key |
| Backend.LimiterNeverRejects | backend/src/middlewares/rateLimiter.ts:39-40 | from a store without `sms:` keys, after any run the limiter never rejects; it admits whenever its reads arrive; the usage report reads 0 and 0 |
| Backend.EmptyStoreNeverRejects | backend/src/middlewares/rateLimiter.ts:21 | a backend started on an empty store admits every request on a healthy connection, whatever happened before, and its store stays well typed |
| Utils.MapResponse | frontend/src/lib/utils.ts:11-16 | the message carries the response's status and body |
| Utils.MapResponseKeepsStatusAndData | frontend/src/lib/utils.ts:11-16 | two responses map to the same message exactly when their status and body agree |
| Utils.TrimBounds | frontend/src/lib/utils.ts:27 | `trim` removes only JavaScript white space and line terminators from both ends, and the kept part starts and ends with a non-space |
| Utils.MatchLine | frontend/src/lib/utils.ts:20-25 | within one line, the match fails exactly when no " at " has text before it and a timestamp character after it; a success has a non-empty timestamp |
| Utils.MatchLineSplitsAtLastSeparator | frontend/src/lib/utils.ts:20-28 | greedy `.+` splits at the last separator: the message is the trimmed text before it, and the timestamp is the whole run of timestamp characters after it |
| Utils.GetTimeStamp | frontend/src/lib/utils.ts:18-29 | a single-line text is matched as one line; failure is the "Invalid error message format" error; a success has a non-empty timestamp |
| Utils.GetTimeStampFailsIffNoMatch | frontend/src/lib/utils.ts:21-25 | `getTimeStamp` throws exactly when no separator in the text has a non-terminator character before it |
| RoundTrip.TrimKeepsTrimmed | frontend/src/lib/utils.ts:27 | `trim` leaves a text unchanged when it starts and ends with a non-space character |
| RoundTrip.SplitsBack | frontend/src/lib/utils.ts:20-28 | a single-line text, " at ", then a timestamp splits back into the trimmed text and exactly that timestamp |
| RoundTrip.ViolationRoundTrip | backend/src/middlewares/rateLimiter.ts:27 | `getTimeStamp` parses any single-line violation text back into its trimmed description and exactly its timestamp, even when the phone number itself contains " at " |
| RoundTrip.IsoViolationRoundTrip | backend/src/middlewares/rateLimiter.ts:46 | with an ISO-8601 stamp and a phone number ending in a non-space, `getTimeStamp` returns the description exactly as the limiter wrote it |

## Left out

- Express routing, request parsing, response bodies and HTTP status texts,
  console logging, the UI pages, `cn` and the zod schema: they carry no
  logic of the core. Outcomes are modelled as values such as
  `RejectMinute(retrySeconds)`, not as the JSON messages.
- Connection setup and the Redis client configuration. A lost command never
  reaches the store. A command that runs but whose reply is lost is not
  modelled.
- Concurrency: each handler runs as one step. Commands of concurrent
  requests are not interleaved.
- `parseInt` on stored strings: counters are integers, and only INCR ever
  writes the counter keys.
- An undefined phone number or address: inputs are strings, as the template
  literals turn `undefined` into the text "undefined".
- LRANGE is modelled only for the range 0 to -1, the only one used.
- Redis eviction, persistence and memory limits.
- RateLimiter.CeilHours: computes an exact integer ceiling, where the source
  divides in floating point (`ttl / 60 / 60`). The two agree for every TTL
  below roughly 4.5 * 10^15 seconds; the model takes them to agree for all
  TTLs.
- RateLimiter.RateLimit: the store's clock counts whole seconds and does not
  move between one handler's commands, so the minute hint is always positive
  (or -1). The source can answer "try again in 0 seconds", because Redis
  rounds a TTL under half a second to 0, and "-2 seconds", when the key
  expires between the GET and the TTL. Neither is modelled.
- SmsService.GetSMSStats: returns two integers. The source returns the raw
  GET replies without `parseInt`, so its result mixes types: the counter's
  string when the key is present (`"5"`) and the number 0 when it is absent.
- Utils.GetTimeStamp: returns the raw timestamp, not the date formatted by
  `new Date` and `date-fns`. A timestamp that is not a valid date makes
  `format` throw in the source, but succeeds here.
- Utils.MapResponse: a null or undefined response, which throws in the
  source, is not modelled.
- The mock dispatcher's console output, and the phone number and message it
  ignores.

=== FILE: backend.dfy ===
/**
 * The backend as a whole: any interleaving of the modelled handlers and of
 * the passage of time, each handler running on its own connection. Two
 * facts hold over every such run: the store stays well typed, and, since no
 * handler writes the per-identity counters, the rate limiter never rejects
 * once those counters are absent.
 */
module Backend {
  import opened Base
  import opened Redis
  import opened RateLimiter
  import opened SmsModel
  import opened SmsService
  import opened StatsController

  datatype Request =
    | Limit(ip: string, phone: string, stamp: string)
    | Send(phone: string, message: string)
    | Usage(ip: string, phone: string)
    | ViolationReport(ip: string)
    | GlobalStats
    | Wait(seconds: nat)

  datatype Op = Op(request: Request, link: Link)

  /** The store after one handler; the three reports issue no writes. */
  function Step(db: Db, op: Op): Db {
    match op.request
    case Limit(ip, phone, stamp) => RateLimit(db, op.link, ip, phone, stamp).db
    case Send(phone, message) => SendSMSMessage(db, op.link, phone, message).db
    case Usage(_, _) => db
    case ViolationReport(_) => db
    case GlobalStats => db
    case Wait(seconds) => Advance(db, seconds)
  }

  function Run(db: Db, ops: seq<Op>): Db
    decreases |ops|
  {
    if |ops| == 0 then db else Run(Step(db, ops[0]), ops[1..])
  }

  /**
   * Counters live under the per-identity keys and the two global keys, and
   * lists under the violation keys.
   */
  ghost predicate Typed(db: Db) {
    forall k | k in db.data ::
      (IsIdentityKey(k) || k == MinuteStatsKey || k == DayStatsKey ==> db.data[k].value.Counter?) &&
      (IsViolationKey(k) ==> db.data[k].value.List?)
  }

  /** No per-identity counter exists. */
  ghost predicate NoIdentityCounters(db: Db) {
    forall k | k in db.data :: !IsIdentityKey(k)
  }

  lemma GlobalKeysAreNotIdentityKeys()
    ensures !IsIdentityKey(MinuteStatsKey) && !IsIdentityKey(DayStatsKey)
    ensures !IsViolationKey(MinuteStatsKey) && !IsViolationKey(DayStatsKey)
  {
    assert MinuteStatsKey[..4] == "minu";
    assert DayStatsKey[..4] == "day:";
  }

  /** The limiter writes one list, under a violation key. */
  lemma LimitPreservesTyped(db: Db, link: Link, ip: string, phone: string, stamp: string)
    requires Typed(db)
    ensures Typed(RateLimit(db, link, ip, phone, stamp).db)
  {
    var r := RateLimit(db, link, ip, phone, stamp);
    var vk := ViolationKey(ip);
    assert SameExcept(db, r.db, {vk});
    assert vk in r.db.data ==> r.db.data[vk].value.List?;
    assert !IsIdentityKey(vk);
    GlobalKeysAreNotIdentityKeys();
    assert vk != MinuteStatsKey && vk != DayStatsKey;
  }

  /** A send writes counters, under the two global keys. */
  lemma SendPreservesTyped(db: Db, link: Link, phone: string, message: string)
    requires Typed(db)
    ensures Typed(SendSMSMessage(db, link, phone, message).db)
  {
    var r := SendSMSMessage(db, link, phone, message);
    if link.Up(0) {
      CountersStayCounters(db, link, phone);
      GlobalKeysAreNotIdentityKeys();
      forall k | k in r.db.data && k != MinuteStatsKey && k != DayStatsKey
        ensures k in db.data && r.db.data[k] == db.data[k]
      {
        assert Unchanged(db, r.db, k);
      }
    }
  }

  lemma StepPreservesTyped(db: Db, op: Op)
    requires Typed(db)
    ensures Typed(Step(db, op))
  {
    match op.request
    case Limit(ip, phone, stamp) => LimitPreservesTyped(db, op.link, ip, phone, stamp);
    case Send(phone, message) => SendPreservesTyped(db, op.link, phone, message);
    case _ =>
  }

  lemma StepKeepsNoIdentityCounters(db: Db, op: Op)
    requires NoIdentityCounters(db)
    ensures NoIdentityCounters(Step(db, op))
  {
    GlobalKeysAreNotIdentityKeys();
  }

  /** Every run from a well-typed store stays well typed. */
  lemma {:induction false} RunPreservesTyped(db: Db, ops: seq<Op>)
    requires Typed(db)
    ensures Typed(Run(db, ops))
    decreases |ops|
  {
    if |ops| > 0 {
      StepPreservesTyped(db, ops[0]);
      RunPreservesTyped(Step(db, ops[0]), ops[1..]);
    }
  }

  lemma {:induction false} RunKeepsNoIdentityCounters(db: Db, ops: seq<Op>)
    requires NoIdentityCounters(db)
    ensures NoIdentityCounters(Run(db, ops))
    decreases |ops|
  {
    if |ops| > 0 {
      StepKeepsNoIdentityCounters(db, ops[0]);
      RunKeepsNoIdentityCounters(Step(db, ops[0]), ops[1..]);
    }
  }

  /**
   * Because no handler writes the per-identity counters, a store without
   * them never gains them: after any run the limiter admits every request
   * whose reads are delivered, answers 500 otherwise, and never rejects;
   * and the usage report reads 0 and 0.
   */
  lemma LimiterNeverRejects(db: Db, ops: seq<Op>, link: Link, ip: string, phone: string, stamp: string)
    requires NoIdentityCounters(db)
    ensures var later := Run(db, ops);
            var o := RateLimit(later, link, ip, phone, stamp).outcome;
            (o == Next || o == ServerError) &&
            (link.Up(1) ==> o == Next) &&
            (link.Up(1) ==> StatsController.GetSMSStats(later, link, ip, phone) == StatsController.Usage(0, 0))
  {
    RunKeepsNoIdentityCounters(db, ops);
    var later := Run(db, ops);
    assert MinuteKey(ip, phone) !in later.data && DayKey(ip, phone) !in later.data;
  }

  /** The same, for the backend started on an empty store at any time. */
  lemma EmptyStoreNeverRejects(now: nat, ops: seq<Op>, ip: string, phone: string, stamp: string)
    ensures RateLimit(Run(Db(map[], now), ops), Healthy, ip, phone, stamp).outcome == Next
    ensures Typed(Run(Db(map[], now), ops))
  {
    LimiterNeverRejects(Db(map[], now), ops, Healthy, ip, phone, stamp);
    RunPreservesTyped(Db(map[], now), ops);
  }
}

=== FILE: base.dfy ===
/** Optional values, shared by the backend and the dashboard models. */
module Base {
  datatype Option<T> = None | Some(value: T)
}

=== FILE: rate_limiter.dfy ===
/**
 * The `rateLimiter` middleware: for a request from `ip` to `phone` it reads
 * the per-identity minute counter, then the day counter, and rejects when a
 * live counter has reached its limit. A reject pushes a description of the
 * breach onto the source's violation list and refreshes that list's expiry.
 * The middleware never writes the counters it reads.
 *
 * Store commands are numbered in the order the middleware issues them, so
 * that a `Link` decides which of them reach the store.
 */
module RateLimiter {
  import opened Base
  import opened Redis

  const MinuteLimit: int := 3
  const DayLimit: int := 10
  /** Lifetime of a source's violation list, refreshed on every push. */
  const ViolationRetention: int := 60 * 60
  const SecondsPerHour: int := 60 * 60

  /** Keys the limiter reads start with this prefix. */
  predicate IsIdentityKey(k: string) {
    |k| >= 4 && k[..4] == "sms:"
  }

  predicate IsViolationKey(k: string) {
    |k| >= 20 && k[..20] == "rateLimitViolations:"
  }

  predicate NoColon(s: string) {
    forall i | 0 <= i < |s| :: s[i] != ':'
  }

  function MinuteKey(ip: string, phone: string): (k: string)
    ensures IsIdentityKey(k) && k[|k| - 1] == 'e'
    ensures |k| == |ip| + |phone| + 12 && k[4..4 + |ip|] == ip && k[|k| - 7..] == ":minute"
    ensures k[4 + |ip|] == ':' && k[5 + |ip|..|k| - 7] == phone
  {
    "sms:" + ip + ":" + phone + ":minute"
  }

  function DayKey(ip: string, phone: string): (k: string)
    ensures IsIdentityKey(k) && k[|k| - 1] == 'y'
    ensures |k| == |ip| + |phone| + 9 && k[4..4 + |ip|] == ip && k[|k| - 4..] == ":day"
    ensures k[4 + |ip|] == ':' && k[5 + |ip|..|k| - 4] == phone
  {
    "sms:" + ip + ":" + phone + ":day"
  }

  function ViolationKey(ip: string): (k: string)
    ensures IsViolationKey(k) && !IsIdentityKey(k)
  {
    var k := "rateLimitViolations:" + ip;
    assert k[..4][0] == k[0] == 'r';
    k
  }

  datatype Window = Minute | Day

  function Description(w: Window, phone: string): string {
    (if w == Minute then "Minute limit exceeded for " else "Daily limit exceeded for ") + phone
  }

  /** The text pushed on a reject; `stamp` stands for the request's ISO-8601 time. */
  function ViolationText(w: Window, phone: string, stamp: string): (t: string)
    ensures var d := Description(w, phone);
            |t| == |d| + 4 + |stamp| &&
            t[..|d|] == d && t[|d|..|d| + 4] == " at " && t[|d| + 4..] == stamp
  {
    Description(w, phone) + " at " + stamp
  }

  /**
   * What the middleware does with the request: pass it on, answer 429 with a
   * retry hint in seconds (minute window) or hours (day window), or answer 500.
   */
  datatype Outcome = Next | RejectMinute(retrySeconds: int) | RejectDay(retryHours: int) | ServerError

  datatype Handled = Handled(outcome: Outcome, db: Db)

  /** A live counter under `key` has reached `limit`. */
  predicate Over(db: Db, key: string, limit: int) {
    Count(db, key).Some? && Count(db, key).value >= limit
  }

  /** Whole hours covering `seconds`, rounded up. */
  function CeilHours(seconds: int): (h: int)
    ensures (h - 1) * SecondsPerHour < seconds <= h * SecondsPerHour
  {
    (seconds + SecondsPerHour - 1) / SecondsPerHour
  }

  /** `text` was pushed onto the list of `ip` and nothing else changed. */
  ghost predicate Pushed(db: Db, db': Db, ip: string, text: string) {
    SameExcept(db, db', {ViolationKey(ip)}) &&
    Lookup(db', ViolationKey(ip)) == Some(List([text] + Items(db, ViolationKey(ip))))
  }

  /** A completed violation record: pushed, and the list now expires one retention period from now. */
  ghost predicate Recorded(db: Db, db': Db, ip: string, text: string) {
    Pushed(db, db', ip, text) &&
    db'.data[ViolationKey(ip)].expiresAt == Some(db.now + ViolationRetention)
  }

  function RetryHint(w: Window, ttl: int): Outcome {
    if w == Minute then RejectMinute(ttl) else RejectDay(CeilHours(ttl))
  }

  /**
   * Commands i, i+1 and i+2 of a reject on window `w`: read the TTL of the
   * breached counter, push the violation text, refresh the list's expiry.
   */
  function Reject(db: Db, link: Link, i: nat, w: Window, key: string, ip: string, phone: string, stamp: string): (r: Handled)
    ensures r.outcome.ServerError? <==> !link.Up(i + 2) || HoldsCounter(db, ViolationKey(ip))
    ensures !r.outcome.ServerError? ==>
              r.outcome == RetryHint(w, Ttl(db, key, true).value) &&
              Recorded(db, r.db, ip, ViolationText(w, phone, stamp))
    ensures r.outcome.ServerError? ==>
              r.db == db || Pushed(db, r.db, ip, ViolationText(w, phone, stamp))
    ensures !link.Up(i + 1) ==> r.db == db
    ensures r.outcome.ServerError? && link.Up(i + 1) && !HoldsCounter(db, ViolationKey(ip)) ==>
              Pushed(db, r.db, ip, ViolationText(w, phone, stamp))
    ensures HoldsCounter(db, ViolationKey(ip)) ==> r.db == db
  {
    match Ttl(db, key, link.Up(i))
    case Fail(_) => Handled(ServerError, db)
    case Ok(ttl) =>
      match LPush(db, ViolationKey(ip), ViolationText(w, phone, stamp), link.Up(i + 1))
      case Fail(_) => Handled(ServerError, db)
      case Ok(db1) =>
        match Expire(db1, ViolationKey(ip), ViolationRetention, link.Up(i + 2))
        case Fail(_) => Handled(ServerError, db1)
        case Ok(db2) => Handled(RetryHint(w, ttl), db2)
  }

  /**
   * The middleware: GET minute key (command 0); on a breach, reject on the
   * minute window (commands 1-3); otherwise GET day key (command 1); on a
   * breach, reject on the day window (commands 2-4); otherwise call `next`.
   */
  function RateLimit(db: Db, link: Link, ip: string, phone: string, stamp: string): (r: Handled)
    ensures r.outcome.Next? ==>
              r.db == db &&
              !Over(db, MinuteKey(ip, phone), MinuteLimit) && !Over(db, DayKey(ip, phone), DayLimit)
    ensures r.outcome.RejectMinute? ==>
              Over(db, MinuteKey(ip, phone), MinuteLimit) &&
              Ttl(db, MinuteKey(ip, phone), true) == Ok(r.outcome.retrySeconds) &&
              Recorded(db, r.db, ip, ViolationText(Minute, phone, stamp))
    ensures r.outcome.RejectDay? ==>
              !Over(db, MinuteKey(ip, phone), MinuteLimit) && Over(db, DayKey(ip, phone), DayLimit) &&
              r.outcome.retryHours == CeilHours(Ttl(db, DayKey(ip, phone), true).value) &&
              Recorded(db, r.db, ip, ViolationText(Day, phone, stamp))
    ensures r.outcome.ServerError? ==>
              r.db == db ||
              Pushed(db, r.db, ip, ViolationText(Minute, phone, stamp)) ||
              Pushed(db, r.db, ip, ViolationText(Day, phone, stamp))
    ensures r.outcome.ServerError? <==>
              !link.Up(0) || HoldsList(db, MinuteKey(ip, phone)) ||
              if Over(db, MinuteKey(ip, phone), MinuteLimit) then
                !link.Up(3) || HoldsCounter(db, ViolationKey(ip))
              else
                !link.Up(1) || HoldsList(db, DayKey(ip, phone)) ||
                (Over(db, DayKey(ip, phone), DayLimit) && (!link.Up(4) || HoldsCounter(db, ViolationKey(ip))))
    ensures r.outcome.Next? ==> link.Up(1)
    ensures r.outcome.RejectMinute? ==> link.Up(3)
    ensures r.outcome.RejectDay? ==> link.Up(4)
    ensures !link.Up(2) ==> r.db == db
    ensures !link.Up(3) && !Over(db, MinuteKey(ip, phone), MinuteLimit) ==> r.db == db
    ensures r.outcome.ServerError? && link.Up(2) && !HoldsCounter(db, ViolationKey(ip)) &&
            Over(db, MinuteKey(ip, phone), MinuteLimit) ==>
              Pushed(db, r.db, ip, ViolationText(Minute, phone, stamp))
    ensures r.outcome.ServerError? && link.Up(3) && !HoldsCounter(db, ViolationKey(ip)) &&
            !HoldsList(db, MinuteKey(ip, phone)) && !Over(db, MinuteKey(ip, phone), MinuteLimit) &&
            Over(db, DayKey(ip, phone), DayLimit) ==>
              Pushed(db, r.db, ip, ViolationText(Day, phone, stamp))
    ensures HoldsList(db, MinuteKey(ip, phone)) || HoldsCounter(db, ViolationKey(ip)) ==> r.db == db
    ensures !Over(db, MinuteKey(ip, phone), MinuteLimit) && !Over(db, DayKey(ip, phone), DayLimit) ==> r.db == db
  {
    var minuteKey := MinuteKey(ip, phone);
    match Get(db, minuteKey, link.Up(0))
    case Fail(_) => Handled(ServerError, db)
    case Ok(minuteCount) =>
      if minuteCount.Some? && minuteCount.value >= MinuteLimit then
        Reject(db, link, 1, Minute, minuteKey, ip, phone, stamp)
      else
        var dayKey := DayKey(ip, phone);
        match Get(db, dayKey, link.Up(1))
        case Fail(_) => Handled(ServerError, db)
        case Ok(dayCount) =>
          if dayCount.Some? && dayCount.value >= DayLimit then
            Reject(db, link, 2, Day, dayKey, ip, phone, stamp)
          else
            Handled(Next, db)
  }

  /** The three keys one request touches hold the kinds of value the middleware expects. */
  predicate KeysWellTyped(db: Db, ip: string, phone: string) {
    !HoldsList(db, MinuteKey(ip, phone)) &&
    !HoldsList(db, DayKey(ip, phone)) &&
    !HoldsCounter(db, ViolationKey(ip))
  }

  /** Number of characters after the last ':' of `s` (all of them when there is none). */
  function AfterLastColon(s: string): (n: nat)
    ensures n <= |s|
  {
    if |s| == 0 || s[|s| - 1] == ':' then 0 else AfterLastColon(s[..|s| - 1]) + 1
  }

  lemma {:induction false} AfterLastColonOf(a: string, p: string)
    requires NoColon(p)
    ensures AfterLastColon(a + ":" + p) == |p|
  {
    var s := a + ":" + p;
    if |p| > 0 {
      assert s[..|s| - 1] == a + ":" + p[..|p| - 1];
      AfterLastColonOf(a, p[..|p| - 1]);
    }
  }

  lemma ColonFreeSuffix(a: string, p: string, b: string, q: string)
    requires NoColon(p) && NoColon(q)
    requires a + ":" + p == b + ":" + q
    ensures a == b && p == q
  {
    var s := a + ":" + p;
    AfterLastColonOf(a, p);
    AfterLastColonOf(b, q);
    assert a == s[..|a|] == b;
    assert p == s[|a| + 1..] == q;
  }

  lemma MiddleOf(m: string, m': string, suffix: string)
    requires "sms:" + m + suffix == "sms:" + m' + suffix
    ensures m == m'
  {
    var k := "sms:" + m + suffix;
    assert m == k[4..|k| - |suffix|];
    assert m' == k[4..|k| - |suffix|];
  }

  /**
   * Minute and day keys never collide, and each is injective in the
   * identity as long as the phone number holds no ':' (the address may).
   */
  lemma KeysInjective(ip: string, phone: string, ip': string, phone': string)
    requires NoColon(phone) && NoColon(phone')
    ensures MinuteKey(ip, phone) == MinuteKey(ip', phone') <==> ip == ip' && phone == phone'
    ensures DayKey(ip, phone) == DayKey(ip', phone') <==> ip == ip' && phone == phone'
    ensures MinuteKey(ip, phone) != DayKey(ip', phone')
  {
    var m, m' := ip + ":" + phone, ip' + ":" + phone';
    assert MinuteKey(ip, phone) == "sms:" + m + ":minute";
    assert MinuteKey(ip', phone') == "sms:" + m' + ":minute";
    assert DayKey(ip, phone) == "sms:" + m + ":day";
    assert DayKey(ip', phone') == "sms:" + m' + ":day";
    if MinuteKey(ip, phone) == MinuteKey(ip', phone') {
      MiddleOf(m, m', ":minute");
      ColonFreeSuffix(ip, phone, ip', phone');
    }
    if DayKey(ip, phone) == DayKey(ip', phone') {
      MiddleOf(m, m', ":day");
      ColonFreeSuffix(ip, phone, ip', phone');
    }
  }

  /**
   * Without the colon-free phone number the derivation is not injective: the
   * client at "::1" sending to "5:+15550100" shares counters with the client
   * at "::1:5" sending to "+15550100".
   */
  lemma KeysCollideAcrossColon(ip: string, a: string, b: string)
    ensures MinuteKey(ip, a + ":" + b) == MinuteKey(ip + ":" + a, b)
    ensures DayKey(ip, a + ":" + b) == DayKey(ip + ":" + a, b)
    ensures ip != ip + ":" + a
  {
    assert |ip + ":" + a| > |ip|;
  }

  /**
   * With every command delivered and the keys well typed, the decision
   * depends only on the two counters: minute window first, then day window,
   * each rejecting once its live count is at least the limit.
   */
  lemma Decision(db: Db, ip: string, phone: string, stamp: string)
    requires KeysWellTyped(db, ip, phone)
    ensures RateLimit(db, Healthy, ip, phone, stamp).outcome ==
              if Over(db, MinuteKey(ip, phone), MinuteLimit) then
                RejectMinute(Ttl(db, MinuteKey(ip, phone), true).value)
              else if Over(db, DayKey(ip, phone), DayLimit) then
                RejectDay(CeilHours(Ttl(db, DayKey(ip, phone), true).value))
              else
                Next
  {
  }

  /** One below a limit passes, the limit itself rejects. */
  lemma LimitBoundaries(db: Db, ip: string, phone: string, stamp: string)
    requires KeysWellTyped(db, ip, phone)
    ensures Count(db, MinuteKey(ip, phone)) == Some(MinuteLimit - 1) &&
            Count(db, DayKey(ip, phone)) == Some(DayLimit - 1) ==>
              RateLimit(db, Healthy, ip, phone, stamp).outcome == Next
    ensures Count(db, MinuteKey(ip, phone)) == Some(MinuteLimit) ==>
              RateLimit(db, Healthy, ip, phone, stamp).outcome.RejectMinute?
    ensures Count(db, MinuteKey(ip, phone)) == Some(MinuteLimit - 1) &&
            Count(db, DayKey(ip, phone)) == Some(DayLimit) ==>
              RateLimit(db, Healthy, ip, phone, stamp).outcome.RejectDay?
  {
    Decision(db, ip, phone, stamp);
  }

  /**
   * Once the minute counter is over its limit the day key is never read:
   * replacing or removing its entry does not change the outcome.
   */
  lemma MinuteRejectIgnoresDayKey(db: Db, link: Link, ip: string, phone: string, stamp: string, e: Entry)
    requires Over(db, MinuteKey(ip, phone), MinuteLimit)
    ensures var r := RateLimit(db, link, ip, phone, stamp);
            r.outcome.RejectMinute? || r.outcome.ServerError?
    ensures var day := DayKey(ip, phone);
            RateLimit(db.(data := db.data[day := e]), link, ip, phone, stamp).outcome ==
            RateLimit(db.(data := db.data - {day}), link, ip, phone, stamp).outcome ==
            RateLimit(db, link, ip, phone, stamp).outcome
  {
    var day := DayKey(ip, phone);
    SameMinutePath(db, db.(data := db.data[day := e]), link, ip, phone, stamp);
    SameMinutePath(db, db.(data := db.data - {day}), link, ip, phone, stamp);
  }

  lemma SameMinutePath(db: Db, db': Db, link: Link, ip: string, phone: string, stamp: string)
    requires Over(db, MinuteKey(ip, phone), MinuteLimit)
    requires db'.now == db.now
    requires Unchanged(db, db', MinuteKey(ip, phone)) && Unchanged(db, db', ViolationKey(ip))
    ensures RateLimit(db', link, ip, phone, stamp).outcome == RateLimit(db, link, ip, phone, stamp).outcome
  {
    var key := MinuteKey(ip, phone);
    assert Lookup(db', key) == Lookup(db, key);
    assert Ttl(db', key, true) == Ttl(db, key, true);
    assert HoldsCounter(db', ViolationKey(ip)) == HoldsCounter(db, ViolationKey(ip));
  }

  /** A connection that delivers nothing answers 500 and leaves the store alone. */
  lemma LostConnectionIsServerError(db: Db, ip: string, phone: string, stamp: string)
    ensures RateLimit(db, LostAfter(0), ip, phone, stamp) == Handled(ServerError, db)
  {
  }

  /**
   * A failure of the final EXPIRE of a minute reject still answers 500, but
   * the violation already pushed stays in the list: nothing is rolled back.
   */
  lemma FailedExpireKeepsPush(db: Db, ip: string, phone: string, stamp: string)
    requires KeysWellTyped(db, ip, phone)
    requires Over(db, MinuteKey(ip, phone), MinuteLimit)
    ensures var r := RateLimit(db, LostAfter(3), ip, phone, stamp);
            r.outcome == ServerError && r.db != db &&
            Pushed(db, r.db, ip, ViolationText(Minute, phone, stamp))
  {
    var r := RateLimit(db, LostAfter(3), ip, phone, stamp);
    assert Items(r.db, ViolationKey(ip)) != Items(db, ViolationKey(ip));
  }

  /**
   * When that lost EXPIRE follows the push that created the list, the list
   * has no expiry at all: it stays live however much time passes.
   */
  lemma LostExpireKeepsListForever(db: Db, ip: string, phone: string, stamp: string, elapsed: nat)
    requires KeysWellTyped(db, ip, phone)
    requires Over(db, MinuteKey(ip, phone), MinuteLimit)
    requires !Live(db, ViolationKey(ip))
    ensures var r := RateLimit(db, LostAfter(3), ip, phone, stamp);
            r.db.data[ViolationKey(ip)].expiresAt.None? &&
            Live(Advance(r.db, elapsed), ViolationKey(ip)) &&
            Items(Advance(r.db, elapsed), ViolationKey(ip)) == [ViolationText(Minute, phone, stamp)]
  {
    var r := RateLimit(db, LostAfter(3), ip, phone, stamp);
    var vk := ViolationKey(ip);
    assert Items(db, vk) == [];
    assert Lookup(r.db, vk) == Some(List([ViolationText(Minute, phone, stamp)]));
    assert r.db.data[vk].expiresAt.None?;
  }

  /**
   * The middleware does not count the requests it judges: asked again at the
   * same instant it reaches the same decision, and each reject lengthens the
   * violation list by one.
   */
  lemma DecisionIsStable(db: Db, ip: string, phone: string, stamp: string, stamp': string)
    requires KeysWellTyped(db, ip, phone)
    ensures var r := RateLimit(db, Healthy, ip, phone, stamp);
            var r' := RateLimit(r.db, Healthy, ip, phone, stamp');
            r'.outcome == r.outcome &&
            |Items(r'.db, ViolationKey(ip))| ==
              |Items(db, ViolationKey(ip))| + (if r.outcome.Next? then 0 else 2)
  {
    var r := RateLimit(db, Healthy, ip, phone, stamp);
    Decision(db, ip, phone, stamp);
    if !r.outcome.Next? {
      assert Lookup(r.db, MinuteKey(ip, phone)) == Lookup(db, MinuteKey(ip, phone));
      assert Lookup(r.db, DayKey(ip, phone)) == Lookup(db, DayKey(ip, phone));
      assert Ttl(r.db, MinuteKey(ip, phone), true) == Ttl(db, MinuteKey(ip, phone), true);
      assert Ttl(r.db, DayKey(ip, phone), true) == Ttl(db, DayKey(ip, phone), true);
    }
    Decision(r.db, ip, phone, stamp');
  }
}

=== FILE: redis.dfy ===
/**
 * The key/value store the backend talks to, reduced to the commands the
 * modelled code issues: GET, INCR, EXPIRE, TTL, LPUSH and LRANGE over the
 * whole list. Time is an abstract clock `now` in seconds; a key carries an
 * optional absolute expiry and is live only while `now` is before it.
 *
 * Every command takes `up`, whether the connection delivers it. A command
 * that is not delivered fails with `ConnectionLost` and changes nothing.
 */
module Redis {
  import opened Base

  /** Largest value a Redis counter can hold (signed 64-bit). */
  const MaxCounter: int := 0x7FFF_FFFF_FFFF_FFFF

  datatype Value = Counter(n: int) | List(items: seq<string>)

  /** A stored value with its absolute expiry time, if any. */
  datatype Entry = Entry(value: Value, expiresAt: Option<nat>)

  datatype Db = Db(data: map<string, Entry>, now: nat)

  datatype StoreError = ConnectionLost | WrongType | Overflow

  datatype Reply<T> = Ok(value: T) | Fail(error: StoreError)

  /**
   * The connection seen by one handler: either every command reaches the
   * store, or only the first `delivered` of them do.
   */
  datatype Link = Healthy | LostAfter(delivered: nat) {
    predicate Up(i: nat) {
      Healthy? || i < delivered
    }
  }

  predicate Live(db: Db, key: string) {
    key in db.data &&
    (db.data[key].expiresAt.None? || db.now < db.data[key].expiresAt.value)
  }

  /** What a client can observe under `key`: nothing once it has expired. */
  function Lookup(db: Db, key: string): Option<Value> {
    if Live(db, key) then Some(db.data[key].value) else None
  }

  /** The live counter under `key`, if there is one. */
  function Count(db: Db, key: string): Option<int> {
    match Lookup(db, key)
    case Some(Counter(n)) => Some(n)
    case _ => None
  }

  /** The live list under `key`; an absent or expired key reads as empty. */
  function Items(db: Db, key: string): seq<string> {
    match Lookup(db, key)
    case Some(List(xs)) => xs
    case _ => []
  }

  predicate HoldsList(db: Db, key: string) {
    Live(db, key) && db.data[key].value.List?
  }

  predicate HoldsCounter(db: Db, key: string) {
    Live(db, key) && db.data[key].value.Counter?
  }

  /** `key` holds the same entry (or none) in both stores. */
  predicate Unchanged(db: Db, db': Db, key: string) {
    (key in db.data <==> key in db'.data) &&
    (key in db.data ==> db'.data[key] == db.data[key])
  }

  /** Only the keys in `keys` may differ, and the clock has not moved. */
  ghost predicate SameExcept(db: Db, db': Db, keys: set<string>) {
    db'.now == db.now &&
    forall k :: k !in keys ==> Unchanged(db, db', k)
  }

  function Get(db: Db, key: string, up: bool): (r: Reply<Option<int>>)
    ensures r.Ok? ==> up && r.value == Count(db, key)
    ensures r.Fail? <==> !up || HoldsList(db, key)
  {
    if !up then Fail(ConnectionLost)
    else match Lookup(db, key)
      case None => Ok(None)
      case Some(Counter(n)) => Ok(Some(n))
      case Some(List(_)) => Fail(WrongType)
  }

  /** Remaining seconds to live; -2 for a missing key, -1 for one without expiry. */
  function Ttl(db: Db, key: string, up: bool): (r: Reply<int>)
    ensures r.Ok? <==> up
    ensures r.Ok? && !Live(db, key) ==> r.value == -2
    ensures r.Ok? && Live(db, key) ==>
              r.value == match db.data[key].expiresAt case None => -1 case Some(t) => t - db.now
  {
    if !up then Fail(ConnectionLost)
    else if !Live(db, key) then Ok(-2)
    else match db.data[key].expiresAt
      case None => Ok(-1)
      case Some(t) => Ok(t - db.now)
  }

  /**
   * INCR: an absent or expired key starts again at 1 with no expiry; a live
   * counter keeps its expiry.
   */
  function Incr(db: Db, key: string, up: bool): (r: Reply<Db>)
    ensures r.Ok? ==> SameExcept(db, r.value, {key})
    ensures r.Ok? ==> Count(r.value, key) == Some(match Count(db, key) case Some(n) => n + 1 case None => 1)
    ensures r.Ok? && Live(db, key) ==> r.value.data[key].expiresAt == db.data[key].expiresAt
    ensures r.Ok? && !Live(db, key) ==> r.value.data[key].expiresAt.None?
    ensures r.Ok? <==> up && (match Lookup(db, key) case None => true case Some(v) => v.Counter? && v.n < MaxCounter)
  {
    if !up then Fail(ConnectionLost)
    else match Lookup(db, key)
      case None => Ok(db.(data := db.data[key := Entry(Counter(1), None)]))
      case Some(List(_)) => Fail(WrongType)
      case Some(Counter(n)) =>
        if n >= MaxCounter then Fail(Overflow)
        else Ok(db.(data := db.data[key := db.data[key].(value := Counter(n + 1))]))
  }

  /** EXPIRE: only a live key is affected; a non-positive duration deletes it. */
  function Expire(db: Db, key: string, seconds: int, up: bool): (r: Reply<Db>)
    ensures r.Ok? <==> up
    ensures r.Ok? ==> SameExcept(db, r.value, {key})
    ensures r.Ok? && !Live(db, key) ==> r.value == db
    ensures r.Ok? && Live(db, key) && seconds > 0 ==>
              Lookup(r.value, key) == Lookup(db, key) &&
              r.value.data[key].expiresAt == Some(db.now + seconds)
  {
    if !up then Fail(ConnectionLost)
    else if !Live(db, key) then Ok(db)
    else if seconds <= 0 then Ok(db.(data := db.data - {key}))
    else Ok(db.(data := db.data[key := db.data[key].(expiresAt := Some(db.now + seconds))]))
  }

  /** LPUSH of one item: the new item becomes the head; an absent key becomes a list with no expiry. */
  function LPush(db: Db, key: string, item: string, up: bool): (r: Reply<Db>)
    ensures r.Ok? <==> up && !HoldsCounter(db, key)
    ensures r.Ok? ==> SameExcept(db, r.value, {key})
    ensures r.Ok? ==> Lookup(r.value, key) == Some(List([item] + Items(db, key)))
    ensures r.Ok? && !Live(db, key) ==> r.value.data[key].expiresAt.None?
    ensures r.Ok? && Live(db, key) ==> r.value.data[key].expiresAt == db.data[key].expiresAt
  {
    if !up then Fail(ConnectionLost)
    else match Lookup(db, key)
      case None =>
        assert [item] + [] == [item];
        Ok(db.(data := db.data[key := Entry(List([item]), None)]))
      case Some(Counter(_)) => Fail(WrongType)
      case Some(List(xs)) => Ok(db.(data := db.data[key := db.data[key].(value := List([item] + xs))]))
  }

  /** LRANGE key 0 -1: the whole list, head first. */
  function LRangeAll(db: Db, key: string, up: bool): (r: Reply<seq<string>>)
    ensures r.Ok? <==> up && !HoldsCounter(db, key)
    ensures r.Ok? ==> r.value == Items(db, key)
  {
    if !up then Fail(ConnectionLost)
    else match Lookup(db, key)
      case None => Ok([])
      case Some(Counter(_)) => Fail(WrongType)
      case Some(List(xs)) => Ok(xs)
  }

  /** Passage of time between requests. */
  function Advance(db: Db, seconds: nat): (r: Db)
    ensures r.data == db.data && r.now == db.now + seconds
  {
    db.(now := db.now + seconds)
  }
}

=== FILE: round_trip.dfy ===
/**
 * The violation texts written by the rate limiter and parsed back by the
 * dashboard helper `getTimeStamp`: for a single-line phone number and a
 * timestamp in the form `Date.prototype.toISOString` produces, `getTimeStamp`
 * recovers the description and exactly the timestamp.
 */
module RoundTrip {
  import opened Base
  import opened RateLimiter
  import opened Utils

  predicate IsDigit(c: char) {
    '0' <= c <= '9'
  }

  /** `YYYY-MM-DDTHH:mm:ss.sssZ`, the 24-character form for years 0 to 9999. */
  predicate IsIsoStamp(t: string) {
    |t| == 24 &&
    t[4] == '-' && t[7] == '-' && t[10] == 'T' && t[13] == ':' && t[16] == ':' && t[19] == '.' && t[23] == 'Z' &&
    forall i | 0 <= i < 23 && i !in {4, 7, 10, 13, 16, 19} :: IsDigit(t[i])
  }

  lemma IsoStampIsStamp(t: string)
    requires IsIsoStamp(t)
    ensures IsStamp(t)
  {
    forall i | 0 <= i < |t|
      ensures IsStampChar(t[i])
    {
      if i !in {4, 7, 10, 13, 16, 19, 23} {
        assert IsDigit(t[i]);
      }
    }
  }

  lemma DescriptionIsSingleLine(w: Window, phone: string)
    requires NoTerminator(phone)
    ensures NoTerminator(Description(w, phone))
    ensures |Description(w, phone)| > |phone|
    ensures !IsJsSpace(Description(w, phone)[0])
  {
    var prefix := if w == Minute then "Minute limit exceeded for " else "Daily limit exceeded for ";
    assert Description(w, phone) == prefix + phone;
    forall i | 0 <= i < |prefix + phone|
      ensures !IsLineTerminator((prefix + phone)[i])
    {
      if i >= |prefix| {
        assert (prefix + phone)[i] == phone[i - |prefix|];
      }
    }
  }

  /** The only split of `d + " at " + t` is the one just after `d`. */
  lemma SplitAfterDescription(d: string, t: string)
    requires |d| > 0 && IsStamp(t)
    ensures var s := d + " at " + t;
            IsSplit(s, |d|) && forall k | |d| < k < |s| :: !IsSplit(s, k)
  {
    var s := d + " at " + t;
    assert s[|d|..|d| + 4] == " at ";
    assert s[|d| + 4] == t[0];
    forall k | |d| < k < |s|
      ensures !IsSplit(s, k)
    {
      if k + 5 <= |s| {
        if k < |d| + 3 {
          assert s[k] != ' ';
          assert s[k..k + 4][0] == s[k];
        } else if k == |d| + 3 {
          assert s[k + 1] == t[0];
          assert s[k..k + 4][1] == s[k + 1];
        } else {
          assert s[k] == t[k - |d| - 4];
          assert s[k..k + 4][0] == s[k];
        }
      }
    }
  }

  lemma JoinedIsSingleLine(d: string, t: string)
    requires NoTerminator(d) && IsStamp(t)
    ensures NoTerminator(d + " at " + t)
  {
    var s := d + " at " + t;
    forall i | 0 <= i < |s|
      ensures !IsLineTerminator(s[i])
    {
      if i < |d| {
        assert s[i] == d[i];
      } else if |d| + 4 <= i {
        assert s[i] == t[i - |d| - 4];
      }
    }
  }

  /** A single-line text, " at ", then a timestamp: the parser splits it back into its two parts. */
  lemma SplitsBack(d: string, t: string)
    requires |d| > 0 && NoTerminator(d) && IsStamp(t)
    ensures GetTimeStamp(d + " at " + t) == Success(Extracted(Trim(d), t))
  {
    var s := d + " at " + t;
    JoinedIsSingleLine(d, t);
    SplitAfterDescription(d, t);
    MatchLineSplitsAtLastSeparator(s, |d|);
    var x := MatchLine(s).value;
    var end := |d| + 4 + |x.timestamp|;
    assert end == |s|;
    assert s[..|d|] == d;
    assert s[|d| + 4..] == t;
    assert x == Extracted(Trim(d), t);
    assert GetTimeStamp(s) == MatchLine(s);
  }

  /**
   * Parsing back what the limiter pushes: `getTimeStamp`'s message is the
   * trimmed description and its timestamp is exactly the one written,
   * whatever the phone number holds, " at " included, as long as it has no
   * line break.
   */
  lemma ViolationRoundTrip(w: Window, phone: string, stamp: string)
    requires NoTerminator(phone)
    requires IsStamp(stamp)
    ensures GetTimeStamp(ViolationText(w, phone, stamp)) ==
            Success(Extracted(Trim(Description(w, phone)), stamp))
  {
    DescriptionIsSingleLine(w, phone);
    SplitsBack(Description(w, phone), stamp);
  }

  /** Trimming leaves a text alone when it starts and ends with a non-space. */
  lemma TrimKeepsTrimmed(s: string)
    requires |s| > 0 && !IsJsSpace(s[0]) && !IsJsSpace(s[|s| - 1])
    ensures Trim(s) == s
  {
    var b := TrimBounds(s);
    assert b.0 == 0;
    assert b.1 == |s|;
  }

  /**
   * With a timestamp from `toISOString` and a phone number that is a single
   * line ending in a non-space, `getTimeStamp` returns the description
   * exactly as the limiter wrote it.
   */
  lemma IsoViolationRoundTrip(w: Window, phone: string, stamp: string)
    requires NoTerminator(phone) && |phone| > 0 && !IsJsSpace(phone[|phone| - 1])
    requires IsIsoStamp(stamp)
    ensures GetTimeStamp(ViolationText(w, phone, stamp)) == Success(Extracted(Description(w, phone), stamp))
  {
    IsoStampIsStamp(stamp);
    ViolationRoundTrip(w, phone, stamp);
    DescriptionIsSingleLine(w, phone);
    var d := Description(w, phone);
    assert d[|d| - 1] == phone[|phone| - 1];
    TrimKeepsTrimmed(d);
  }
}

=== FILE: sms_model.dfy ===
/**
 * `logSMSRequest`: one MULTI/EXEC transaction that increments the two
 * global usage counters and re-arms their expiry. The transaction is one
 * round trip, so it is one state transition: either the connection carries
 * it and all four queued commands run, or nothing changes. A command that
 * fails inside EXEC (a wrong type, an overflowing counter) leaves its key
 * as it was and does not stop the commands queued after it.
 */
module SmsModel {
  import opened Base
  import opened Redis

  const MinuteStatsKey: string := "minute:stats"
  const DayStatsKey: string := "day:stats"
  const MinuteStatsTtl: int := 60
  const DayStatsTtl: int := 86400

  /** The store after one queued command: an error reply changes nothing. */
  function Queued(r: Reply<Db>, db: Db): Db {
    if r.Ok? then r.value else db
  }

  /**
   * `key` was counted once: a live counter below the 64-bit maximum went
   * up by one, an absent or expired key became 1, a live list or a counter
   * at the maximum (INCR's error cases) kept its value, and in every case
   * the key is live and expires `ttl` seconds from now.
   */
  ghost predicate Bumped(db: Db, db': Db, key: string, ttl: int) {
    (Lookup(db, key).None? ==> Count(db', key) == Some(1)) &&
    (Count(db, key).Some? && Count(db, key).value < MaxCounter ==> Count(db', key) == Some(Count(db, key).value + 1)) &&
    (HoldsList(db, key) ==> Lookup(db', key) == Lookup(db, key)) &&
    (Count(db, key) == Some(MaxCounter) ==> Count(db', key) == Some(MaxCounter)) &&
    Live(db', key) && db'.data[key].expiresAt == Some(db.now + ttl)
  }

  /** INCR then EXPIRE on one key, as queued in the transaction. */
  function Bump(db: Db, key: string, ttl: int): (r: Db)
    requires ttl > 0
    ensures SameExcept(db, r, {key})
    ensures Bumped(db, r, key, ttl)
  {
    var counted := Queued(Incr(db, key, true), db);
    Queued(Expire(counted, key, ttl, true), counted)
  }

  /** The transaction as one step; the phone number is not used. */
  function LogSMSRequest(db: Db, link: Link, phone: string): (r: Reply<Db>)
    ensures r.Fail? <==> !link.Up(0)
    ensures r.Ok? ==> SameExcept(db, r.value, {MinuteStatsKey, DayStatsKey})
    ensures r.Ok? ==> Bumped(db, r.value, MinuteStatsKey, MinuteStatsTtl)
    ensures r.Ok? ==> Bumped(db, r.value, DayStatsKey, DayStatsTtl)
  {
    if !link.Up(0) then Fail(ConnectionLost)
    else
      var minute := Bump(db, MinuteStatsKey, MinuteStatsTtl);
      var both := Bump(minute, DayStatsKey, DayStatsTtl);
      assert Unchanged(minute, both, MinuteStatsKey);
      Ok(both)
  }

  /** A store holding only counters (or nothing) under the two keys still does so afterwards. */
  lemma CountersStayCounters(db: Db, link: Link, phone: string)
    requires link.Up(0)
    requires MinuteStatsKey in db.data ==> db.data[MinuteStatsKey].value.Counter?
    requires DayStatsKey in db.data ==> db.data[DayStatsKey].value.Counter?
    ensures var db' := LogSMSRequest(db, link, phone).value;
            db'.data[MinuteStatsKey].value.Counter? && db'.data[DayStatsKey].value.Counter?
  {
  }

  /** With no further call, the counters disappear exactly one window after the last one. */
  lemma CountersExpireAfterLastCall(db: Db, link: Link, phone: string, elapsed: nat)
    requires LogSMSRequest(db, link, phone).Ok?
    ensures var later := Advance(LogSMSRequest(db, link, phone).value, elapsed);
            (Live(later, MinuteStatsKey) <==> elapsed < MinuteStatsTtl) &&
            (Live(later, DayStatsKey) <==> elapsed < DayStatsTtl)
  {
  }

  /**
   * Two calls less than a minute apart, for any two phone numbers, count
   * twice on the same global counters, and the minute counter then expires
   * a minute after the second call rather than the first.
   */
  lemma ExpiryReArmedOnEveryCall(db: Db, phone: string, phone': string, elapsed: nat, n: int)
    requires Count(db, MinuteStatsKey) == Some(n) && n + 2 <= MaxCounter
    requires elapsed < MinuteStatsTtl
    ensures var db1 := LogSMSRequest(db, Healthy, phone).value;
            var db2 := LogSMSRequest(Advance(db1, elapsed), Healthy, phone').value;
            Count(db2, MinuteStatsKey) == Some(n + 2) &&
            db2.data[MinuteStatsKey].expiresAt == Some(db.now + elapsed + MinuteStatsTtl)
  {
    var db1 := LogSMSRequest(db, Healthy, phone).value;
    assert Count(db1, MinuteStatsKey) == Some(n + 1);
    assert Count(Advance(db1, elapsed), MinuteStatsKey) == Some(n + 1);
  }
}

=== FILE: sms_service.dfy ===
/**
 * The SMS service: `sendSMSMessage` answers with the mock dispatcher's fixed
 * result and records one use on the global counters; `getSMSStats` reads the
 * two global counters back.
 */
module SmsService {
  import opened Base
  import opened Redis
  import opened SmsModel

  datatype SmsResponse = SmsResponse(success: bool, message: string)

  /** The mock dispatcher: whatever the number and text, it reports success. */
  function MockSendSMS(phone: string, message: string): (r: SmsResponse)
    ensures r.success && r.message == "SMS sent successfully"
  {
    SmsResponse(true, "SMS sent successfully")
  }

  datatype Sent = Sent(reply: Reply<SmsResponse>, db: Db)

  /**
   * Dispatch, then record the use. When the recording transaction fails the
   * call fails as a whole and the store is as before.
   */
  function SendSMSMessage(db: Db, link: Link, phone: string, message: string): (r: Sent)
    ensures r.reply.Ok? <==> link.Up(0)
    ensures r.reply.Ok? ==>
              r.reply.value == SmsResponse(true, "SMS sent successfully") &&
              SameExcept(db, r.db, {MinuteStatsKey, DayStatsKey}) &&
              Bumped(db, r.db, MinuteStatsKey, MinuteStatsTtl) &&
              Bumped(db, r.db, DayStatsKey, DayStatsTtl)
    ensures r.reply.Fail? ==> r.db == db
  {
    var response := MockSendSMS(phone, message);
    match LogSMSRequest(db, link, phone)
    case Fail(e) => Sent(Fail(e), db)
    case Ok(db') => Sent(Ok(response), db')
  }

  datatype GlobalCounts = GlobalCounts(minute: int, day: int)

  /** The global counters, an absent or expired one reading as 0 (commands 0 and 1). */
  function GetSMSStats(db: Db, link: Link): (r: Reply<GlobalCounts>)
    ensures r.Ok? <==> link.Up(1) && !HoldsList(db, MinuteStatsKey) && !HoldsList(db, DayStatsKey)
    ensures r.Ok? ==> r.value == GlobalCounts(Reading(db, MinuteStatsKey), Reading(db, DayStatsKey))
    ensures r.Ok? && !Live(db, MinuteStatsKey) ==> r.value.minute == 0
    ensures r.Ok? && !Live(db, DayStatsKey) ==> r.value.day == 0
    ensures r.Ok? && Live(db, MinuteStatsKey) ==> db.data[MinuteStatsKey].value == Counter(r.value.minute)
    ensures r.Ok? && Live(db, DayStatsKey) ==> db.data[DayStatsKey].value == Counter(r.value.day)
  {
    match Get(db, MinuteStatsKey, link.Up(0))
    case Fail(e) => Fail(e)
    case Ok(minute) =>
      match Get(db, DayStatsKey, link.Up(1))
      case Fail(e) => Fail(e)
      case Ok(day) =>
        Ok(GlobalCounts(if minute.Some? then minute.value else 0, if day.Some? then day.value else 0))
  }

  /** Both global counters hold numbers (or nothing), as only INCR ever writes them. */
  predicate CountersWellTyped(db: Db) {
    !HoldsList(db, MinuteStatsKey) && !HoldsList(db, DayStatsKey)
  }

  /** Replaying a sequence of (phone number, text) sends at one instant. */
  function SendAll(db: Db, sends: seq<(string, string)>): Db
    decreases |sends|
  {
    if |sends| == 0 then db
    else SendAll(SendSMSMessage(db, Healthy, sends[0].0, sends[0].1).db, sends[1..])
  }

  /** What `getSMSStats` reports for one global counter. */
  function Reading(db: Db, key: string): int {
    match Count(db, key)
    case Some(n) => n
    case None => 0
  }

  lemma StatsAreReadings(db: Db)
    requires CountersWellTyped(db)
    ensures GetSMSStats(db, Healthy) == Ok(GlobalCounts(Reading(db, MinuteStatsKey), Reading(db, DayStatsKey)))
  {
  }

  /** One delivered send raises both readings by exactly one. */
  lemma SendIsCountedOnce(db: Db, phone: string, message: string)
    requires CountersWellTyped(db)
    requires Reading(db, MinuteStatsKey) < MaxCounter && Reading(db, DayStatsKey) < MaxCounter
    ensures var db' := SendSMSMessage(db, Healthy, phone, message).db;
            CountersWellTyped(db') &&
            Reading(db', MinuteStatsKey) == Reading(db, MinuteStatsKey) + 1 &&
            Reading(db', DayStatsKey) == Reading(db, DayStatsKey) + 1
  {
  }

  lemma {:induction false} ReadingsAfterSends(db: Db, sends: seq<(string, string)>)
    requires CountersWellTyped(db)
    requires Reading(db, MinuteStatsKey) + |sends| <= MaxCounter
    requires Reading(db, DayStatsKey) + |sends| <= MaxCounter
    ensures CountersWellTyped(SendAll(db, sends))
    ensures Reading(SendAll(db, sends), MinuteStatsKey) == Reading(db, MinuteStatsKey) + |sends|
    ensures Reading(SendAll(db, sends), DayStatsKey) == Reading(db, DayStatsKey) + |sends|
    decreases |sends|
  {
    if |sends| > 0 {
      var db1 := SendSMSMessage(db, Healthy, sends[0].0, sends[0].1).db;
      SendIsCountedOnce(db, sends[0].0, sends[0].1);
      ReadingsAfterSends(db1, sends[1..]);
    }
  }

  /**
   * Each send is seen exactly once by the stats: after k sends at one
   * instant both global readings have gone up by k, whichever phone numbers
   * were used.
   */
  lemma SendsAreCountedOnce(db: Db, sends: seq<(string, string)>, before: GlobalCounts)
    requires GetSMSStats(db, Healthy) == Ok(before)
    requires before.minute + |sends| <= MaxCounter && before.day + |sends| <= MaxCounter
    ensures GetSMSStats(SendAll(db, sends), Healthy) ==
              Ok(GlobalCounts(before.minute + |sends|, before.day + |sends|))
  {
    StatsAreReadings(db);
    ReadingsAfterSends(db, sends);
    StatsAreReadings(SendAll(db, sends));
  }
}

=== FILE: stats_controller.dfy ===
/**
 * The read-only reporting endpoints: per-identity usage (the two counters
 * the rate limiter checks) and the violation list of a source address.
 * Neither handler issues a write, so neither returns a store.
 */
module StatsController {
  import opened Base
  import opened Redis
  import opened RateLimiter

  /** 200 with both counts, or 500 when a read fails. */
  datatype UsageResponse = Usage(smsSentInLastMinute: int, totalSmsSentToday: int) | UsageError

  /** 200 with the whole list, or 500 when the read fails. */
  datatype ViolationsResponse = Violations(violations: seq<string>) | ViolationsError

  /** `getSMSStats`: GET minute key (command 0), GET day key (command 1). */
  function GetSMSStats(db: Db, link: Link, ip: string, phone: string): (r: UsageResponse)
    ensures r.UsageError? <==>
              !link.Up(1) || HoldsList(db, MinuteKey(ip, phone)) || HoldsList(db, DayKey(ip, phone))
    ensures r.Usage? && !Live(db, MinuteKey(ip, phone)) ==> r.smsSentInLastMinute == 0
    ensures r.Usage? && !Live(db, DayKey(ip, phone)) ==> r.totalSmsSentToday == 0
    ensures r.Usage? && Live(db, MinuteKey(ip, phone)) ==>
              db.data[MinuteKey(ip, phone)].value == Counter(r.smsSentInLastMinute)
    ensures r.Usage? && Live(db, DayKey(ip, phone)) ==>
              db.data[DayKey(ip, phone)].value == Counter(r.totalSmsSentToday)
  {
    match Get(db, MinuteKey(ip, phone), link.Up(0))
    case Fail(_) => UsageError
    case Ok(minute) =>
      match Get(db, DayKey(ip, phone), link.Up(1))
      case Fail(_) => UsageError
      case Ok(day) =>
        Usage(if minute.Some? then minute.value else 0, if day.Some? then day.value else 0)
  }

  /** `getRateLimitViolations`: LRANGE over the whole list (command 0). */
  function GetRateLimitViolations(db: Db, link: Link, ip: string): (r: ViolationsResponse)
    ensures r.ViolationsError? <==> !link.Up(0) || HoldsCounter(db, ViolationKey(ip))
    ensures r.Violations? && !Live(db, ViolationKey(ip)) ==> r.violations == []
    ensures r.Violations? && Live(db, ViolationKey(ip)) ==>
              db.data[ViolationKey(ip)].value == List(r.violations)
  {
    match LRangeAll(db, ViolationKey(ip), link.Up(0))
    case Fail(_) => ViolationsError
    case Ok(xs) => Violations(xs)
  }

  /**
   * The usage report reads the very counters the limiter judges: with every
   * command delivered, the limiter rejects on the minute window exactly when
   * the reported minute count is at the limit, and on the day window
   * exactly when the minute count is below its limit and the day count is
   * at its own.
   */
  lemma UsagePredictsLimiter(db: Db, ip: string, phone: string, stamp: string)
    requires KeysWellTyped(db, ip, phone)
    ensures var u := GetSMSStats(db, Healthy, ip, phone);
            var o := RateLimit(db, Healthy, ip, phone, stamp).outcome;
            u.Usage? &&
            (o.RejectMinute? <==> u.smsSentInLastMinute >= MinuteLimit) &&
            (o.RejectDay? <==> u.smsSentInLastMinute < MinuteLimit && u.totalSmsSentToday >= DayLimit) &&
            (o.Next? <==> u.smsSentInLastMinute < MinuteLimit && u.totalSmsSentToday < DayLimit)
  {
    Decision(db, ip, phone, stamp);
  }

  /**
   * A reject is visible at once in the violation report of its source, at
   * the head of the list and ahead of everything reported before.
   */
  lemma RejectIsReported(db: Db, ip: string, phone: string, stamp: string)
    requires KeysWellTyped(db, ip, phone)
    requires Over(db, MinuteKey(ip, phone), MinuteLimit) || Over(db, DayKey(ip, phone), DayLimit)
    ensures var r := RateLimit(db, Healthy, ip, phone, stamp);
            var w := if r.outcome.RejectMinute? then Minute else Day;
            GetRateLimitViolations(r.db, Healthy, ip) ==
              Violations([ViolationText(w, phone, stamp)] + GetRateLimitViolations(db, Healthy, ip).violations)
  {
    Decision(db, ip, phone, stamp);
  }

  /** Reports about one address never see another address's violations. */
  lemma ViolationsArePerSource(db: Db, ip: string, phone: string, stamp: string, other: string)
    requires other != ip
    ensures GetRateLimitViolations(RateLimit(db, Healthy, ip, phone, stamp).db, Healthy, other) ==
            GetRateLimitViolations(db, Healthy, other)
  {
    var r := RateLimit(db, Healthy, ip, phone, stamp);
    assert ViolationKey(other) != ViolationKey(ip) by {
      assert ViolationKey(other)[20..] == other;
      assert ViolationKey(ip)[20..] == ip;
    }
    assert Unchanged(db, r.db, ViolationKey(other));
  }
}

=== FILE: utils.dfy ===
/**
 * The dashboard's helpers: `mapResponse`, which keeps the status and body of
 * an HTTP response, and `getTimeStamp`, which splits a violation description
 * into its message and its timestamp with the pattern
 * `(.+) at ([\d\-T:\.Z]+)`.
 *
 * The pattern has no anchors and no flags. `.` matches any character but a
 * line terminator and `.+` is greedy, so the match lies in the first line
 * that holds a separator, and within that line it splits at the LAST
 * " at " that is followed by a timestamp character. The timestamp is the
 * longest run of timestamp characters after that separator.
 */
module Utils {
  import opened Base

  datatype Result<T> = Success(value: T) | Failure(error: string)

  /** The response object of the HTTP client, with the fields the dashboard ignores. */
  datatype HttpResponse<D> = HttpResponse(data: D, status: int, statusText: string, headers: map<string, string>)

  datatype MessageType<D> = MessageType(status: int, data: D)

  function MapResponse<D>(response: HttpResponse<D>): (r: MessageType<D>)
    ensures r.status == response.status && r.data == response.data
  {
    MessageType(response.status, response.data)
  }

  /** Two responses give the same message exactly when their status and body agree. */
  lemma MapResponseKeepsStatusAndData<D>(a: HttpResponse<D>, b: HttpResponse<D>)
    ensures MapResponse(a) == MapResponse(b) <==> a.status == b.status && a.data == b.data
  {
  }

  const InvalidFormat: string := "Invalid error message format"

  /** Characters `.` does not match. */
  predicate IsLineTerminator(c: char) {
    c == '\n' || c == '\r' || c as int == 0x2028 || c as int == 0x2029
  }

  /** What `String.prototype.trim` removes: white space and line terminators. */
  predicate IsJsSpace(c: char) {
    IsLineTerminator(c) || c == '\t' || c as int == 0x0B || c as int == 0x0C || c == ' ' ||
    c as int == 0xA0 || c as int == 0x1680 || 0x2000 <= c as int <= 0x200A ||
    c as int == 0x202F || c as int == 0x205F || c as int == 0x3000 || c as int == 0xFEFF
  }

  /** The class `[\d\-T:\.Z]`; `\d` is ASCII digits only. */
  predicate IsStampChar(c: char) {
    '0' <= c <= '9' || c == '-' || c == 'T' || c == ':' || c == '.' || c == 'Z'
  }

  predicate NoTerminator(s: string) {
    forall i | 0 <= i < |s| :: !IsLineTerminator(s[i])
  }

  /** A non-empty run of timestamp characters. */
  predicate IsStamp(t: string) {
    |t| > 0 && forall i | 0 <= i < |t| :: IsStampChar(t[i])
  }

  /** Position `j` of `s` starts a separator " at " that has a non-empty prefix and a timestamp character after it. */
  predicate IsSplit(s: string, j: int) {
    1 <= j && j + 5 <= |s| && s[j..j + 4] == " at " && IsStampChar(s[j + 4])
  }

  /** The largest split position below `n`, if any. */
  function LastSplitBelow(s: string, n: nat): (r: Option<nat>)
    requires n <= |s|
    ensures r.Some? ==> r.value < n && IsSplit(s, r.value)
    ensures r.Some? ==> forall k | r.value < k < n :: !IsSplit(s, k)
    ensures r.None? ==> forall k | 0 <= k < n :: !IsSplit(s, k)
  {
    if n == 0 then None
    else if IsSplit(s, n - 1) then Some(n - 1)
    else LastSplitBelow(s, n - 1)
  }

  /** Length of the longest run of timestamp characters starting at `i`. */
  function StampRun(s: string, i: nat): (n: nat)
    requires i <= |s|
    ensures i + n <= |s|
    ensures forall k | i <= k < i + n :: IsStampChar(s[k])
    ensures i + n == |s| || !IsStampChar(s[i + n])
    decreases |s| - i
  {
    if i == |s| || !IsStampChar(s[i]) then 0 else 1 + StampRun(s, i + 1)
  }

  function LeadingSpaces(s: string): (n: nat)
    ensures n <= |s|
    ensures forall k | 0 <= k < n :: IsJsSpace(s[k])
    ensures n == |s| || !IsJsSpace(s[n])
  {
    if |s| == 0 || !IsJsSpace(s[0]) then 0 else 1 + LeadingSpaces(s[1..])
  }

  function TrailingSpaces(s: string): (n: nat)
    ensures n <= |s|
    ensures forall k | |s| - n <= k < |s| :: IsJsSpace(s[k])
    ensures n == |s| || !IsJsSpace(s[|s| - n - 1])
  {
    if |s| == 0 || !IsJsSpace(s[|s| - 1]) then 0 else 1 + TrailingSpaces(s[..|s| - 1])
  }

  /**
   * Where `trim` cuts: everything outside the bounds is white space, and
   * what is kept starts and ends with a non-space character.
   */
  function TrimBounds(s: string): (b: (nat, nat))
    ensures b.0 <= b.1 <= |s|
    ensures forall k | 0 <= k < b.0 :: IsJsSpace(s[k])
    ensures forall k | b.1 <= k < |s| :: IsJsSpace(s[k])
    ensures b.0 < b.1 ==> !IsJsSpace(s[b.0]) && !IsJsSpace(s[b.1 - 1])
  {
    var a := LeadingSpaces(s);
    if a == |s| then (a, a) else (a, |s| - TrailingSpaces(s))
  }

  function Trim(s: string): string {
    s[TrimBounds(s).0 .. TrimBounds(s).1]
  }

  datatype Extracted = Extracted(message: string, timestamp: string)

  /** The match within one line: split at the last separator, or fail. */
  function MatchLine(line: string): (r: Result<Extracted>)
    ensures r.Failure? <==> forall j | 0 <= j < |line| :: !IsSplit(line, j)
    ensures r.Failure? ==> r.error == InvalidFormat
    ensures r.Success? ==> IsStamp(r.value.timestamp)
  {
    match LastSplitBelow(line, |line|)
    case None => Failure(InvalidFormat)
    case Some(j) =>
      Success(Extracted(Trim(line[..j]), line[j + 4 .. j + 4 + StampRun(line, j + 4)]))
  }

  /**
   * The message is the trimmed text before the last separator and the
   * timestamp is the whole run of timestamp characters after it.
   */
  lemma MatchLineSplitsAtLastSeparator(line: string, j: nat)
    requires IsSplit(line, j)
    requires forall k | j < k < |line| :: !IsSplit(line, k)
    ensures MatchLine(line).Success?
    ensures var x := MatchLine(line).value;
            var end := j + 4 + |x.timestamp|;
            x.message == Trim(line[..j]) &&
            end <= |line| && x.timestamp == line[j + 4 .. end] &&
            (end == |line| || !IsStampChar(line[end]))
  {
    assert LastSplitBelow(line, |line|) == Some(j);
  }

  /** Index of the first line terminator, or |s| when there is none. */
  function FirstTerminator(s: string): (k: nat)
    ensures k <= |s|
    ensures forall i | 0 <= i < k :: !IsLineTerminator(s[i])
    ensures k == |s| || IsLineTerminator(s[k])
  {
    if |s| == 0 || IsLineTerminator(s[0]) then 0 else 1 + FirstTerminator(s[1..])
  }

  /**
   * `getTimeStamp` without the date formatting: the message and the raw
   * timestamp of the leftmost match, or the "Invalid error message format"
   * error when the pattern matches nowhere.
   */
  function GetTimeStamp(s: string): (r: Result<Extracted>)
    ensures NoTerminator(s) ==> r == MatchLine(s)
    ensures r.Failure? ==> r.error == InvalidFormat
    ensures r.Success? ==> IsStamp(r.value.timestamp)
    decreases |s|
  {
    var k := FirstTerminator(s);
    if k == |s| then MatchLine(s)
    else match MatchLine(s[..k])
      case Success(x) => Success(x)
      case Failure(_) => GetTimeStamp(s[k + 1..])
  }

  /**
   * The pattern matches somewhere in `s`: some separator has a prefix
   * character that is not a line terminator.
   */
  predicate Matches(s: string) {
    exists j | 0 <= j < |s| :: IsSplit(s, j) && !IsLineTerminator(s[j - 1])
  }

  lemma SplitInLine(s: string, k: nat, j: nat)
    requires k <= |s| && forall i | 0 <= i < k :: !IsLineTerminator(s[i])
    requires IsSplit(s[..k], j)
    ensures IsSplit(s, j) && !IsLineTerminator(s[j - 1])
  {
    assert s[..k][j..j + 4] == s[j..j + 4];
  }

  lemma SplitBeforeTerminator(s: string, k: nat, j: nat)
    requires k < |s| && IsLineTerminator(s[k])
    requires IsSplit(s, j) && j < k
    ensures IsSplit(s[..k], j)
  {
    assert s[j..j + 4] == " at ";
    assert s[j + 4] != s[k];
    assert s[j + 3] == ' ' && s[j + 2] == 't' && s[j + 1] == 'a' && s[j] == ' ';
    assert j + 5 <= k;
    assert s[..k][j..j + 4] == s[j..j + 4];
  }

  lemma SplitAfterTerminator(s: string, k: nat, j: nat)
    requires k < |s|
    requires IsSplit(s, j) && k < j - 1
    ensures IsSplit(s[k + 1..], j - k - 1) && s[k + 1..][j - k - 2] == s[j - 1]
  {
    assert s[k + 1..][j - k - 1 .. j - k + 3] == s[j..j + 4];
  }

  lemma SplitInRest(s: string, k: nat, j: nat)
    requires k < |s|
    requires IsSplit(s[k + 1..], j)
    ensures IsSplit(s, j + k + 1) && s[j + k] == s[k + 1..][j - 1]
  {
    assert s[k + 1..][j..j + 4] == s[j + k + 1 .. j + k + 5];
  }

  /** Within one line the pattern matches exactly when the line holds a split. */
  lemma MatchesSingleLine(s: string)
    requires NoTerminator(s)
    ensures Matches(s) <==> MatchLine(s).Success?
  {
    if MatchLine(s).Success? {
      var j := LastSplitBelow(s, |s|).value;
      assert IsSplit(s, j) && !IsLineTerminator(s[j - 1]);
    }
  }

  /** Across a line terminator, a match lies in the first line or in what follows. */
  lemma MatchesAcrossTerminator(s: string, k: nat)
    requires k < |s| && IsLineTerminator(s[k])
    requires forall i | 0 <= i < k :: !IsLineTerminator(s[i])
    ensures Matches(s) <==> MatchLine(s[..k]).Success? || Matches(s[k + 1..])
  {
    var line, rest := s[..k], s[k + 1..];
    if MatchLine(line).Success? {
      var j := LastSplitBelow(line, |line|).value;
      SplitInLine(s, k, j);
    }
    if Matches(rest) {
      var j :| 0 <= j < |rest| && IsSplit(rest, j) && !IsLineTerminator(rest[j - 1]);
      SplitInRest(s, k, j);
    }
    if Matches(s) && MatchLine(line).Failure? {
      var j :| 0 <= j < |s| && IsSplit(s, j) && !IsLineTerminator(s[j - 1]);
      if j < k {
        SplitBeforeTerminator(s, k, j);
        assert false;
      } else {
        assert s[j] == s[j..j + 4][0] == ' ';
        SplitAfterTerminator(s, k, j);
      }
    }
  }

  lemma FailsIffNoMatchInLine(s: string)
    requires NoTerminator(s)
    ensures GetTimeStamp(s).Failure? <==> !Matches(s)
  {
    MatchesSingleLine(s);
  }

  /** Past a line terminator, `getTimeStamp` fails when the first line and the rest both fail. */
  lemma FailsAcross(s: string, k: nat)
    requires k == FirstTerminator(s) && k < |s|
    ensures GetTimeStamp(s).Failure? <==> MatchLine(s[..k]).Failure? && GetTimeStamp(s[k + 1..]).Failure?
  {
  }

  /** `getTimeStamp` throws exactly when the pattern matches nowhere. */
  lemma {:induction false} GetTimeStampFailsIffNoMatch(s: string)
    ensures GetTimeStamp(s).Failure? <==> !Matches(s)
    decreases |s|
  {
    var k := FirstTerminator(s);
    if k == |s| {
      FailsIffNoMatchInLine(s);
    } else {
      GetTimeStampFailsIffNoMatch(s[k + 1..]);
      FailsAcross(s, k);
      MatchesAcrossTerminator(s, k);
    }
  }
}
